=== FILE: README.md ===
# Genetic tree-width-bounded DAG fusion — Dafny model

This project models the deterministic core of `GeneticTreeWidthUnion`. That
class fuses several DAGs, already rewritten to one common variable order, into
one consensus DAG. The fused DAG must have tree-width at most a given bound and
should stay as close as possible to the full union of the inputs.

The optimiser is a genetic algorithm over edge subsets:

- The **edge catalog** lists the distinct input edges in order of first
  occurrence. Each edge gets a position and a frequency.
- A **genome** holds one bit per catalog edge.
- The **fitness** of a genome is the structural distance (SMHD) from its DAG
  to the full union. When the DAG's tree-width exceeds the bound, the distance
  is scaled by tree-width / bound.
- Each **generation** evaluates the population, builds a new one, evaluates it
  again and mutates it. In the new population, slot 0 is the best feasible
  genome so far, slot 1 is the elite of the generation, and the other slots are
  tournament children.

Modules:

- `Edges` (edges.dfy) defines edges and DAGs (a DAG is a set of edges). It also
  has the flattened edge list of the inputs and a reference "distinct edges in
  first-occurrence order" function.
- `CatalogState` and `Catalog` (catalogstate.dfy, catalog.dfy) hold the catalog
  pass, its invariants and the frequency bounds used for normalisation.
- `Genome` (genome.dfy) holds encoding, decoding and mutation by a flip mask.
- `Selection` (selection.dfy) holds the elite scan, tournament crossover, the
  roulette lookup and the uniform merge.
- `Fitness` (fitness.dfy) holds the penalty, best-solution tracking and one
  evaluation phase.
- `Engine` (engine.dfy) holds seeding, the crossover step, one generation, the
  run and the whole fusion call.
- `Results` (results.dfy) holds `Option` and `Result`. These model the places
  where the Java code throws or leaves a field null.

Tree-width and SMHD are external metrics, so they are function-valued
parameters. Every random draw is an explicit argument: tournament indices and
cut points, roulette draws and coins, mutation masks, and the randomly seeded
genomes.

## Model

| member | source | states |
|---|---|---|
| Edges.FlattenElements | src/main/java/consensusBN/GeneticTreeWidthUnion.java:92-93 | The pass visits an edge exactly when it belongs to one of the input DAGs' edge lists |
| Edges.DedupElements | src/main/java/consensusBN/GeneticTreeWidthUnion.java:95-101 | Keeping only first occurrences keeps every visited edge and nothing else |
| Edges.DedupNoDuplicates | src/main/java/consensusBN/GeneticTreeWidthUnion.java:97-101 | Appending only unseen edges yields a list without duplicates |
| Edges.DedupFirstOccurrenceOrder | src/main/java/consensusBN/GeneticTreeWidthUnion.java:97-101 | Earlier catalog entries were first met strictly earlier in the visit order |
| Catalog.AddEdge | src/main/java/consensusBN/GeneticTreeWidthUnion.java:95-104 | The visited edge gets frequency 1 if unseen, otherwise its old count plus one. Every other count is unchanged. An unseen edge is appended at the next position; a seen edge leaves the list and the positions unchanged |
| Catalog.AddNewEdgePreserves | src/main/java/consensusBN/GeneticTreeWidthUnion.java:97-101 | An unseen edge goes to position size-of-list with frequency 1, and the catalog stays consistent with the longer visit |
| Catalog.AddSeenEdgePreserves | src/main/java/consensusBN/GeneticTreeWidthUnion.java:102-104 | A seen edge has a position inside the frequency list; its count rises by one in both tables and nothing else changes |
| Catalog.AddEdgePreserves | src/main/java/consensusBN/GeneticTreeWidthUnion.java:95-104 | One step of the pass keeps the catalog consistent and the map size equal to the list length |
| Catalog.CatalogOf | src/main/java/consensusBN/GeneticTreeWidthUnion.java:92-106 | The catalog reached after any visited prefix is consistent with it, and every counted edge has a valid position |
| Catalog.AddEdges | src/main/java/consensusBN/GeneticTreeWidthUnion.java:93-105 | The inner loop over one DAG's edges extends the catalog exactly as visiting those edges in order does |
| Catalog.BuildCatalog | src/main/java/consensusBN/GeneticTreeWidthUnion.java:86-107 | After the pass the catalog is consistent with all input edges. It lists distinct edges in first-occurrence order, the position map inverts the list, both frequency tables count occurrences, and totalEdges equals the list length |
| Catalog.ConsistentShape | src/main/java/consensusBN/GeneticTreeWidthUnion.java:92-107 | A built catalog has no duplicates and holds exactly the input edges. Frequencies are at least 1, frequencyArray[position[e]] equals frequency[e], and totalEdges equals the list length |
| Catalog.CatalogCoversInputs | src/main/java/consensusBN/GeneticTreeWidthUnion.java:92-101 | Every edge of every input DAG is in the catalog, and catalog order is first-occurrence order across the DAGs |
| Catalog.DistinctKeys | src/main/java/consensusBN/GeneticTreeWidthUnion.java:107 | The size of the frequency map equals the number of distinct catalog edges |
| Catalog.ConsistentUnique | src/main/java/consensusBN/GeneticTreeWidthUnion.java:86-107 | Building the catalog twice from the same edge lists gives the same order, positions and frequencies |
| Catalog.MaxOf | src/main/java/consensusBN/GeneticTreeWidthUnion.java:108 | The maximum frequency is one of the frequencies and bounds all of them from above |
| Catalog.MinOf | src/main/java/consensusBN/GeneticTreeWidthUnion.java:109 | The minimum frequency is one of the frequencies and bounds all of them from below |
| Catalog.FrequencyBounds | src/main/java/consensusBN/GeneticTreeWidthUnion.java:108-109 | Fails exactly for an empty catalog. Otherwise maxFreq is the largest frequency, and minFreq is one below the smallest |
| Catalog.EmptyCatalogFails | src/main/java/consensusBN/GeneticTreeWidthUnion.java:108 | Taking the frequency bounds fails exactly when no input edge was visited |
| Catalog.CatalogBounds | src/main/java/consensusBN/GeneticTreeWidthUnion.java:108-109 | For a non-empty input the bounds exist. maxFreq and minFreq + 1 are both attained by some edge's frequency in the map, and every map frequency lies in (minFreq, maxFreq]; so the maximum and minimum of the list equal those of the map |
| Catalog.NormalizationBounds | src/main/java/consensusBN/GeneticTreeWidthUnion.java:108-138 | For a non-empty catalog minFreq < maxFreq, so the denominator is positive, every normalised frequency lies in (0, 1], and the most frequent edge has normalised value 1 |
| Catalog.Uniform | src/main/java/consensusBN/GeneticTreeWidthUnion.java:116 | The uniform flag minFreq == maxFreq is false for every non-empty catalog, so the fair-coin seeding branch never runs |
| Catalog.Normalized | src/main/java/consensusBN/GeneticTreeWidthUnion.java:137 | The normalised frequency of position j lies in (0, 1], and it is 1 exactly when the edge has the largest frequency |
| Catalog.BuiltCatalogFacts | src/main/java/consensusBN/GeneticTreeWidthUnion.java:107-109 | The catalog size is the number of distinct input edges, its edge set is the input edge set, and the bounds fail only without input edges |
| Genome.Encode | src/main/java/consensusBN/GeneticTreeWidthUnion.java:121-123 | Bit j is set exactly when the seed DAG contains catalog edge j; the genome has one bit per catalog edge |
| Genome.Decode | src/main/java/consensusBN/GeneticTreeWidthUnion.java:264-269 | The decoded DAG uses only catalog edges and contains the edge of every set bit |
| Genome.DecodeMembership | src/main/java/consensusBN/GeneticTreeWidthUnion.java:265-269 | On a duplicate-free catalog, edge j is in the decoded DAG exactly when bit j is set |
| Genome.DecodeEncode | src/main/java/consensusBN/GeneticTreeWidthUnion.java:121-129 | Decoding an encoded seed gives back the seed restricted to catalog edges |
| Genome.EncodeDecode | src/main/java/consensusBN/GeneticTreeWidthUnion.java:265-269 | On a duplicate-free catalog, encoding the decoded DAG gives back the genome |
| Genome.DecodeInjective | src/main/java/consensusBN/GeneticTreeWidthUnion.java:265-269 | On a duplicate-free catalog, distinct genomes decode to distinct DAGs |
| Genome.Mutate | src/main/java/consensusBN/GeneticTreeWidthUnion.java:234-258 | Mutation keeps the genome length, and a bit changes exactly where the mask is set |
| Genome.MutateDecode | src/main/java/consensusBN/GeneticTreeWidthUnion.java:235-257 | A masked present edge is removed, a masked absent edge is added, and unmasked edges keep their state |
| Genome.MutateInvolution | src/main/java/consensusBN/GeneticTreeWidthUnion.java:234-258 | Flipping by the same mask twice restores the genome; an all-false mask changes nothing |
| Selection.EliteIndex | src/main/java/consensusBN/GeneticTreeWidthUnion.java:158-165 | The elite is the smallest index in [1, n) with minimal fitness over that range; slot 0 is not scanned |
| Selection.EliteIndexUnique | src/main/java/consensusBN/GeneticTreeWidthUnion.java:158-165 | The elite index is determined by the fitness values, and with population size 2 it is 1 |
| Selection.Winner | src/main/java/consensusBN/GeneticTreeWidthUnion.java:216-224 | The tournament winner is one of the two candidates with the lower fitness, and a tie goes to the second |
| Selection.TournamentChild | src/main/java/consensusBN/GeneticTreeWidthUnion.java:214-225 | The child has catalog length. Positions [0, cut) come from the winner of (i1, i2) and positions [cut, totalEdges) from the winner of (i3, i4) |
| Selection.TournamentChildOfOneParent | src/main/java/consensusBN/GeneticTreeWidthUnion.java:216-225 | When both tournaments have the same winner, the child is a full copy of that winner |
| Selection.TournamentCrossover | src/main/java/consensusBN/GeneticTreeWidthUnion.java:208-228 | Slots 0 and 1 are not written; every slot i >= 2 is the tournament child of draw i - 2; all genomes keep catalog length |
| Selection.IndexByCumulative | src/main/java/consensusBN/GeneticTreeWidthUnion.java:197-205 | Returns the first k with draw <= cum[k], or length - 1 if there is none, so the result is in [0, n) (-1 only for an empty array) |
| Selection.RouletteIndexUnique | src/main/java/consensusBN/GeneticTreeWidthUnion.java:197-205 | At most one index satisfies the lookup's specification, so the lookup is determined by the draw |
| Selection.RouletteInterval | src/main/java/consensusBN/GeneticTreeWidthUnion.java:197-205 | On a nondecreasing cumulative array the selected index is where the draw first falls below or equal to the cumulative weight |
| Selection.UniformChild | src/main/java/consensusBN/GeneticTreeWidthUnion.java:186-192 | The merged child has the parents' length. Bit j is the first parent's bit when coin j is true and the second parent's otherwise, so a bit both parents agree on is inherited unchanged |
| Selection.UniformChildDecode | src/main/java/consensusBN/GeneticTreeWidthUnion.java:186-192 | The child's DAG contains every edge both parents share and no edge that neither parent has |
| Selection.UniformCrossover | src/main/java/consensusBN/GeneticTreeWidthUnion.java:183-194 | Slots 0 and 1 are left as given. Every other slot merges the two roulette-selected parents bit by bit: parent 1's bit when the coin is true, parent 2's otherwise |
| Fitness.Penalty | src/main/java/consensusBN/GeneticTreeWidthUnion.java:274-279 | Feasible: fitness equals the distance. Infeasible: fitness times bound equals distance times tree-width, so fitness is at least the distance, and strictly more when the distance is positive |
| Fitness.PenaltyMonotone | src/main/java/consensusBN/GeneticTreeWidthUnion.java:275-279 | For a fixed distance the fitness never decreases as the tree-width grows |
| Fitness.FitnessOf | src/main/java/consensusBN/GeneticTreeWidthUnion.java:274-279 | A feasible genome scores its raw distance to the full union. An infeasible one scores distance times tree-width / bound: at least the distance, and strictly more when the distance is positive |
| Fitness.CalculateFitness | src/main/java/consensusBN/GeneticTreeWidthUnion.java:262-288 | The best is replaced exactly when the genome is feasible and strictly improves on it. Otherwise it is unchanged. The best stays feasible with its DAG equal to its genome's decoding, and it never gets worse |
| Fitness.Evaluate | src/main/java/consensusBN/GeneticTreeWidthUnion.java:144-150 | One evaluation phase (sequential) scores every slot and keeps the best invariant. The best never gets worse, is at least as good as every feasible slot, and is the old best or a slot of this population. It stays the old best when no feasible slot strictly beats it |
| Engine.InitialPopulation | src/main/java/consensusBN/GeneticTreeWidthUnion.java:115-141 | Slot 0 decodes to the greedy seed's catalog edges and slot 1 to the tighter seed's. The other slots are the given random genomes, and every genome has catalog length |
| Engine.Crossover | src/main/java/consensusBN/GeneticTreeWidthUnion.java:152-169 | Fails exactly when there is no best yet. Otherwise slot 0 is the best individual, slot 1 the elite of slots 1..n-1, and the rest are tournament children |
| Engine.MutateAll | src/main/java/consensusBN/GeneticTreeWidthUnion.java:230-260 | Every slot, elite slots included, is mutated by its own mask |
| Engine.Generation | src/main/java/consensusBN/GeneticTreeWidthUnion.java:63-68 | Fails exactly when there is no best and no feasible slot. Otherwise it is a generation step. The crossed population is the crossover of the first evaluation: slot 0 is the best individual (the old best itself when no slot beats it), slot 1 the elite, the rest tournament children. The second evaluation leaves a best that is a crossed individual at least as fit as every feasible crossed one, and it stays slot 0 unless a feasible crossed slot strictly beats it (the strict < at line 281). The next population is the crossed one mutated by the masks, and the best never gets worse |
| Engine.Run | src/main/java/consensusBN/GeneticTreeWidthUnion.java:62-71 | Fails exactly when there is a generation and no feasible seed. Otherwise it returns a run: it starts from the seeds with no best, and every generation is a generation step from the previous state. The best never gets worse and always satisfies the best invariant. It ends at least as fit as every feasible individual evaluated in any generation, before or after crossover |
| Engine.RunEndsWithBest | src/main/java/consensusBN/GeneticTreeWidthUnion.java:63-71 | After a run with at least one generation, the final best is at least as fit as every feasible individual of every evaluated population, so it is the best over all evaluations |
| Engine.Optimize | src/main/java/consensusBN/GeneticTreeWidthUnion.java:58-72 | The result is the final best DAG of a run from the seeds, as bestDag is returned at line 71. With no generations it is None. With generations it fails exactly when no seed is feasible (the throw at line 155) and otherwise returns a DAG. The DAG uses catalog edges only, is feasible, and is no further from the full union than a feasible greedy seed |
| Engine.FusionUnion | src/main/java/consensusBN/GeneticTreeWidthUnion.java:58-113 | Fails with NoEdges exactly when the inputs have no edges. Otherwise it fails, returns None or returns the final best DAG exactly as a run from the seeds over the catalog does. A returned DAG uses input edges only, is feasible, and is no further from the full union than a feasible greedy seed |

### Behaviour worth noting

Each item is a fact about the code, and the model keeps it as written:

- **Tournament ties.** The comparison `fitness[index1] < fitness[index2]`
  (line 216, and line 221 for the second pair) sends ties to `index2` and
  `index4` (`Selection.Winner`).
- **Penalty on a zero distance.** The penalty at line 276 multiplies the
  distance. An infeasible DAG at distance 0 therefore scores 0, the same as a
  feasible DAG at the same distance (`Fitness.Penalty`).
- **Mutation of elite slots.** `mutate` runs over every slot, slots 0 and 1
  included (line 231, `Engine.MutateAll`). The best solution survives in the
  best-solution record rather than in slot 0.
- **What a frequency counts.** Line 95 counts occurrences in the concatenated
  edge lists, not the number of DAGs that contain the edge. The two agree when
  no DAG lists an edge twice.
- **No feasible individual.** On the first `fusionUnion` call on an object,
  if the first evaluation finds no feasible individual, `bestIndividual` is
  still null and `bestIndividual.clone()` throws at line 155. The model
  returns `Failure(NoBestForElitism)` there. With zero iterations `bestDag`
  stays null, and the model returns `None`. Later calls on the same object
  start from the earlier best (see "Left out").
- **Dead fair-coin branch.** `minFreq` is the smallest frequency minus one
  (line 109). So `uniform = minFreq == maxFreq` (line 116) is false whenever
  the catalog is non-empty, and the `random.nextBoolean()` branch at line 135
  never runs (`Catalog.Uniform`, `Catalog.NormalizationBounds`).

## Left out

- Order reconciliation and union builders (`alphaOrder`, `transformToAlpha`, `applyUnion`, `applyGreedyMaxTreewidth`) are not part of this model. Their results are inputs: the reconciled edge lists, the full union and the two greedy seeds.
- `Utils.getTreeWidth` and `Utils.SMHD` are external metrics. They become function parameters; SMHD is assumed non-negative.
- `java.util.Random` is replaced by explicit draws, assumed to lie in the ranges `nextInt` guarantees.
- The random seeding of slots 2..n-1 (`1/(1-log(normalized))` or a fair coin, lines 132-141) uses floating-point logarithms. These genomes are inputs.
- The mutation rates (`Math.pow`, `Math.log10`, lines 232-257) are floating-point formulas. Each bit's decision "the draw fell below its rate" is an input mask bit.
- The floating-point prefix sum of `1/fitness` (lines 173-181) can divide by zero and round. The cumulative array is an input; nothing is assumed about it except where a lemma says nondecreasing.
- The parallel `IntStream` evaluation (lines 147-149) is modelled as a sequential loop. The unsynchronised best update is not modelled.
- Timing fields and `System.currentTimeMillis` are omitted.
- The iteration count is the number of per-generation draw records.
- Java `double` arithmetic (rounding, NaN, Infinity) is modelled by exact `real` arithmetic.
- Fitness.Penalty: requires bound >= 1. The Java code divides by `maxTreewidth` without a check, so a bound of 0 would give Infinity or NaN.
- Fitness.CalculateFitness: the unset best plays the role of `bestFitness = Double.MAX_VALUE`. A Java fitness of at least `Double.MAX_VALUE` (for example Infinity) never becomes the best; here any feasible fitness replaces an unset best.
- Selection.EliteIndex: requires at least two slots. The Java code reads `fitness[1]` unchecked and throws for a smaller population.
- Selection.UniformCrossover: unused by the generation loop in the source (only tournament crossover is wired in). It is modelled on its own.
- Engine.FusionUnion: models a call on a freshly created object, with every run starting without a best. `bestIndividual`, `bestDag` and `bestFitness` (lines 22-24) are initialised only when the object is created, and `fusionUnion`, `initializeVars` and `initialize` (lines 58-142) never reset them. So a second call on the same object starts from the previous call's best genome, which may not match the new catalog's length, and from its fitness; the model does not cover that.
- Engine.Crossover: `newPopulation[1] = population[bestIndex]` shares the array rather than copying it. Genomes here are values, and the old population is dropped at once, so the sharing is not observable.
- Edges.Edge: a node is an index in the common order. Node objects and the alpha-order consistency of edges are not modelled.

=== FILE: catalog.dfy ===
/**
 The edge catalog: the distinct edges of the reconciled input DAGs, each with a
 stable position and its number of occurrences, built in one pass over the
 DAGs' edge lists.
 */
module Catalog {
  import opened Edges
  import opened Results
  import opened CatalogState

  /**
   The body of the pass for one edge e: an unseen edge is appended at the next
   position with frequency 1; a seen edge has its frequency incremented in the
   map and written back at its position in the list.
   */
  function AddEdge(c: Catalog, e: Edge): (r: Catalog)
    requires e in c.frequency ==> e in c.position && c.position[e] < |c.frequencyArray|
    ensures r.frequency.Keys == c.frequency.Keys + {e}
    ensures r.frequency[e] == (if e in c.frequency then c.frequency[e] + 1 else 1)
    ensures forall x :: x in c.frequency && x != e ==> r.frequency[x] == c.frequency[x]
    ensures e !in c.frequency ==> r.edges == c.edges + [e] && e in r.position && r.position[e] == |c.edges|
    ensures e in c.frequency ==> r.edges == c.edges && r.position == c.position
  {
    if e !in c.frequency then
      Catalog(c.edges + [e], c.position[e := |c.edges|], c.frequency[e := 1], c.frequencyArray + [1])
    else
      var f := c.frequency[e] + 1;
      c.(frequency := c.frequency[e := f], frequencyArray := c.frequencyArray[c.position[e] := f])
  }

  /** Counting one more visited edge changes only that edge's count. */
  lemma OccurrencesSnoc(seen: seq<Edge>, e: Edge)
    ensures Occurrences(seen + [e], e) == Occurrences(seen, e) + 1
    ensures forall x :: x != e ==> Occurrences(seen + [e], x) == Occurrences(seen, x)
  {
    assert multiset(seen + [e]) == multiset(seen) + multiset{e};
  }

  /** The edge list grows by e exactly when e was not visited before. */
  lemma DedupSnoc(seen: seq<Edge>, e: Edge)
    ensures e !in seen ==> Dedup(seen + [e]) == Dedup(seen) + [e]
    ensures e in seen ==> Dedup(seen + [e]) == Dedup(seen)
  {
    DedupElements(seen);
    assert (seen + [e])[..|seen|] == seen;
  }

  lemma AddNewEdgePositions(c: Catalog, seen: seq<Edge>, e: Edge)
    requires PositionsConsistent(c, seen) && e !in seen && e !in c.edges && e !in c.frequency
    ensures PositionsConsistent(AddEdge(c, e), seen + [e])
  {
  }

  lemma AddNewEdgeFrequencies(c: Catalog, seen: seq<Edge>, e: Edge)
    requires FrequenciesConsistent(c, seen) && e !in seen
    ensures FrequenciesConsistent(AddEdge(c, e), seen + [e])
  {
    OccurrencesSnoc(seen, e);
  }

  lemma AddNewEdgeFrequencyArray(c: Catalog, seen: seq<Edge>, e: Edge)
    requires FrequencyArrayConsistent(c, seen) && e !in seen && e !in c.edges && e !in c.frequency
    ensures FrequencyArrayConsistent(AddEdge(c, e), seen + [e])
  {
    OccurrencesSnoc(seen, e);
    var c' := AddEdge(c, e);
    forall k | 0 <= k < |c'.frequencyArray|
      ensures c'.frequencyArray[k] == Occurrences(seen + [e], c'.edges[k])
    {
      if k < |c.edges| {
        assert c'.edges[k] == c.edges[k] != e;
      }
    }
  }

  lemma AddNewEdgePreserves(c: Catalog, seen: seq<Edge>, e: Edge)
    requires Consistent(c, seen)
    requires e !in c.frequency
    ensures Consistent(AddEdge(c, e), seen + [e])
  {
    DedupElements(seen);
    DedupSnoc(seen, e);
    AddNewEdgePositions(c, seen, e);
    AddNewEdgeFrequencies(c, seen, e);
    AddNewEdgeFrequencyArray(c, seen, e);
  }

  lemma AddSeenEdgeFrequencies(c: Catalog, seen: seq<Edge>, e: Edge)
    requires FrequenciesConsistent(c, seen) && e in seen
    requires e in c.position && c.position[e] < |c.frequencyArray|
    ensures FrequenciesConsistent(AddEdge(c, e), seen + [e])
  {
    OccurrencesSnoc(seen, e);
  }

  lemma AddSeenEdgeFrequencyArray(c: Catalog, seen: seq<Edge>, e: Edge, p: nat)
    requires FrequencyArrayConsistent(c, seen) && FrequenciesConsistent(c, seen) && e in c.frequency
    requires NoDuplicates(c.edges) && p < |c.edges| && c.edges[p] == e
    requires e in c.position && c.position[e] == p
    ensures FrequencyArrayConsistent(AddEdge(c, e), seen + [e])
  {
    OccurrencesSnoc(seen, e);
    var c' := AddEdge(c, e);
    forall k | 0 <= k < |c'.frequencyArray|
      ensures c'.frequencyArray[k] == Occurrences(seen + [e], c'.edges[k])
    {
      if k != p {
        assert c.edges[k] != e;
      }
    }
  }

  lemma AddSeenEdgePreserves(c: Catalog, seen: seq<Edge>, e: Edge)
    requires Consistent(c, seen)
    requires e in c.frequency
    ensures e in c.position && c.position[e] < |c.frequencyArray|
    ensures Consistent(AddEdge(c, e), seen + [e])
  {
    DedupElements(seen);
    DedupNoDuplicates(seen);
    DedupSnoc(seen, e);
    var p :| 0 <= p < |c.edges| && c.edges[p] == e;
    assert c.position[e] == p;
    AddSeenEdgeFrequencies(c, seen, e);
    AddSeenEdgeFrequencyArray(c, seen, e, p);
  }

  /** One step of the pass keeps the catalog consistent and the map size equal to the list length. */
  lemma AddEdgePreserves(c: Catalog, seen: seq<Edge>, e: Edge)
    requires Consistent(c, seen)
    requires |c.frequency| == |c.edges|
    ensures e in c.frequency ==> e in c.position && c.position[e] < |c.frequencyArray|
    ensures Consistent(AddEdge(c, e), seen + [e])
    ensures |AddEdge(c, e).frequency| == |AddEdge(c, e).edges|
  {
    if e in c.frequency {
      AddSeenEdgePreserves(c, seen, e);
    } else {
      AddNewEdgePreserves(c, seen, e);
    }
  }

  /** The catalog before any edge has been visited. */
  const InitialCatalog := Catalog([], map[], map[], [])

  /**
   Reference definition of the pass: the catalog reached by adding the
   visited edges one by one. It is consistent with the visited edges, and a
   seen edge always has a position inside the frequency list, so the next step
   is defined.
   */
  ghost function CatalogOf(seen: seq<Edge>): (c: Catalog)
    ensures Consistent(c, seen)
    ensures |c.frequency| == |c.edges|
    ensures forall e :: e in c.frequency ==> e in c.position && c.position[e] < |c.frequencyArray|
    decreases |seen|
  {
    if |seen| == 0 then InitialCatalog
    else
      var front := seen[..|seen| - 1];
      var last := seen[|seen| - 1];
      var c := CatalogOf(front);
      SplitLast(seen);
      AddEdgePreserves(c, front, last);
      ConsistentPositions(AddEdge(c, last), seen);
      AddEdge(c, last)
  }

  /** In a consistent catalog every counted edge has a position inside the frequency list. */
  lemma ConsistentPositions(c: Catalog, seen: seq<Edge>)
    requires Consistent(c, seen)
    ensures forall e :: e in c.frequency ==> e in c.position && c.position[e] < |c.frequencyArray|
  {
    DedupElements(seen);
    forall e | e in c.frequency
      ensures e in c.position && c.position[e] < |c.frequencyArray|
    {
      var p :| 0 <= p < |c.edges| && c.edges[p] == e;
    }
  }

  lemma SplitLast(s: seq<Edge>)
    requires |s| > 0
    ensures s[..|s| - 1] + [s[|s| - 1]] == s
  {
  }

  lemma PrefixSnoc(seen: seq<Edge>, list: seq<Edge>, k: nat)
    requires k < |list|
    ensures seen + list[..k + 1] == (seen + list[..k]) + [list[k]]
  {
    assert list[..k + 1] == list[..k] + [list[k]];
  }

  lemma PrefixBounds(seen: seq<Edge>, list: seq<Edge>)
    ensures seen + list[..0] == seen
    ensures seen + list[..|list|] == seen + list
  {
    assert list[..|list|] == list;
  }

  lemma CatalogOfSnoc(seen: seq<Edge>, e: Edge)
    ensures CatalogOf(seen + [e]) == AddEdge(CatalogOf(seen), e)
  {
    assert (seen + [e])[..|seen|] == seen;
  }

  /** The inner loop of the pass: add the edges of one DAG's edge list in order. */
  method AddEdges(c0: Catalog, ghost seen: seq<Edge>, list: seq<Edge>) returns (c: Catalog)
    requires c0 == CatalogOf(seen)
    ensures c == CatalogOf(seen + list)
  {
    c := c0;
    var k := 0;
    PrefixBounds(seen, list);
    while k < |list|
      invariant k <= |list|
      invariant c == CatalogOf(seen + list[..k])
    {
      var e := list[k];
      CatalogOfSnoc(seen + list[..k], e);
      PrefixSnoc(seen, list, k);
      c := AddEdge(c, e);
      k := k + 1;
    }
  }

  /**
   The catalog pass of `initializeVars`: visit the edge lists of the DAGs in
   order and add each edge to the catalog. The result is consistent with the
   edges visited, and the number of edges read from the frequency map equals
   the length of the edge list.
   */
  method BuildCatalog(dags: seq<seq<Edge>>) returns (c: Catalog)
    ensures Consistent(c, Flatten(dags))
    ensures TotalEdges(c) == |c.edges|
  {
    c := InitialCatalog;
    var d := 0;
    while d < |dags|
      invariant d <= |dags|
      invariant c == CatalogOf(Flatten(dags[..d]))
    {
      c := AddEdges(c, Flatten(dags[..d]), dags[d]);
      FlattenSnoc(dags, d);
      d := d + 1;
    }
    assert dags[..d] == dags;
  }

  /**
   The shape of a consistent catalog: no edge twice, every input edge present,
   frequencies at least one, and the size of the frequency map equal to the
   length of the edge list.
   */
  lemma ConsistentShape(c: Catalog, seen: seq<Edge>)
    requires Consistent(c, seen)
    ensures NoDuplicates(c.edges)
    ensures forall e :: e in seen ==> e in c.edges
    ensures forall e :: e in c.edges ==> e in seen
    ensures forall e :: e in c.frequency ==> c.frequency[e] >= 1
    ensures forall k :: 0 <= k < |c.edges| ==> c.frequencyArray[k] >= 1
    ensures forall e :: e in c.frequency ==> c.position[e] < |c.frequencyArray| && c.frequencyArray[c.position[e]] == c.frequency[e]
    ensures TotalEdges(c) == |c.edges|
  {
    DedupElements(seen);
    DedupNoDuplicates(seen);
    forall e | e in c.frequency
      ensures c.position[e] < |c.frequencyArray| && c.frequencyArray[c.position[e]] == c.frequency[e]
    {
      var p :| 0 <= p < |c.edges| && c.edges[p] == e;
    }
    DistinctKeys(c.edges, c.frequency);
  }

  /** The distinct edges across the DAGs' edge lists, in order of first occurrence. */
  function CatalogEdges(dags: seq<seq<Edge>>): seq<Edge> {
    Dedup(Flatten(dags))
  }

  /** The number of distinct edges across the DAGs' edge lists. */
  function CatalogSize(dags: seq<seq<Edge>>): nat {
    |CatalogEdges(dags)|
  }

  /** Every edge of every input DAG. */
  function InputEdges(dags: seq<seq<Edge>>): set<Edge> {
    Elements(Flatten(dags))
  }

  /**
   What the rest of the run reads from a built catalog: its size, its edge
   set, and that summarising its frequencies fails only without input edges.
   */
  lemma BuiltCatalogFacts(c: Catalog, dags: seq<seq<Edge>>)
    requires Consistent(c, Flatten(dags))
    ensures c.edges == CatalogEdges(dags)
    ensures |c.edges| == CatalogSize(dags)
    ensures Elements(c.edges) == InputEdges(dags)
    ensures FrequencyBounds(c).Failure? <==> InputEdges(dags) == {}
  {
    DedupElements(Flatten(dags));
    EmptyCatalogFails(c, Flatten(dags));
    if |Flatten(dags)| > 0 {
      assert Flatten(dags)[0] in InputEdges(dags);
    }
  }

  /**
   After the pass every edge of every input DAG is in the catalog, and the
   catalog lists edges in the order of their first occurrence across the DAGs.
   */
  lemma CatalogCoversInputs(c: Catalog, dags: seq<seq<Edge>>)
    requires Consistent(c, Flatten(dags))
    ensures forall d, e :: 0 <= d < |dags| && e in dags[d] ==> e in c.edges
    ensures forall i, j :: 0 <= i < j < |c.edges| ==>
      c.edges[i] in Flatten(dags) && c.edges[j] in Flatten(dags) &&
      FirstIndex(Flatten(dags), c.edges[i]) < FirstIndex(Flatten(dags), c.edges[j])
  {
    FlattenElements(dags);
    DedupElements(Flatten(dags));
    DedupFirstOccurrenceOrder(Flatten(dags));
  }

  /** A map whose keys are exactly the entries of a duplicate-free list has as many keys as the list has entries. */
  lemma {:induction false} DistinctKeys(s: seq<Edge>, m: map<Edge, nat>)
    requires NoDuplicates(s)
    requires forall e :: e in m <==> e in s
    ensures |m| == |s|
  {
    if |s| > 0 {
      var last := s[|s| - 1];
      var front := s[..|s| - 1];
      assert forall e :: e in front ==> e != last;
      DistinctKeys(front, m - {last});
      assert last in m;
    } else {
      assert m.Keys == {};
    }
  }

  /**
   A consistent catalog is determined by the visited edges: building it twice
   from the same edge lists gives the same order, positions and frequencies.
   */
  lemma ConsistentUnique(c1: Catalog, c2: Catalog, seen: seq<Edge>)
    requires Consistent(c1, seen) && Consistent(c2, seen)
    ensures c1 == c2
  {
    DedupElements(seen);
    assert c1.position.Keys == c2.position.Keys;
    forall e | e in c1.position
      ensures c1.position[e] == c2.position[e]
    {
      var p :| 0 <= p < |c1.edges| && c1.edges[p] == e;
    }
    assert c1.position == c2.position;
    assert c1.frequency.Keys == c2.frequency.Keys;
    assert c1.frequency == c2.frequency;
    assert c1.frequencyArray == c2.frequencyArray;
  }

  /** Errors of the frequency summary. */
  datatype CatalogError = EmptyCatalog

  /** The largest frequency and the smallest frequency shifted down by one. */
  datatype Bounds = Bounds(maxFreq: int, minFreq: int)

  function MaxOf(s: seq<nat>): (m: nat)
    requires |s| > 0
    ensures m in s
    ensures forall k :: 0 <= k < |s| ==> s[k] <= m
  {
    if |s| == 1 then s[0]
    else
      var rest := MaxOf(s[1..]);
      if s[0] < rest then rest else s[0]
  }

  function MinOf(s: seq<nat>): (m: nat)
    requires |s| > 0
    ensures m in s
    ensures forall k :: 0 <= k < |s| ==> m <= s[k]
  {
    if |s| == 1 then s[0]
    else
      var rest := MinOf(s[1..]);
      if rest < s[0] then rest else s[0]
  }

  /**
   `maxFreq` and `minFreq` of `initializeVars`: the maximum frequency and the
   minimum frequency minus one. Taking the maximum of an empty collection
   fails, so an empty catalog is an error.
   */
  function FrequencyBounds(c: Catalog): (r: Result<Bounds, CatalogError>)
    ensures r.Failure? <==> |c.frequencyArray| == 0
    ensures r.Success? ==>
      && r.value.maxFreq in c.frequencyArray
      && r.value.minFreq + 1 in c.frequencyArray
      && forall k :: 0 <= k < |c.frequencyArray| ==> r.value.minFreq < c.frequencyArray[k] <= r.value.maxFreq
  {
    if |c.frequencyArray| == 0 then Failure(EmptyCatalog)
    else Success(Bounds(MaxOf(c.frequencyArray), MinOf(c.frequencyArray) - 1))
  }

  /**
   The seeding step's `uniform` flag, `minFreq == maxFreq`. It is false for
   every catalog with at least one edge, because `minFreq` sits one below the
   smallest frequency, which is at most the largest; the fair-coin branch of
   the seeding step is therefore never taken.
   */
  function Uniform(c: Catalog): (u: bool)
    requires |c.frequencyArray| > 0
    ensures !u
  {
    var b := FrequencyBounds(c).value;
    b.minFreq == b.maxFreq
  }

  /**
   Frequency of the edge at position j rescaled against the bounds: always in
   (0, 1], and exactly 1 for the most frequent edges.
   */
  function Normalized(c: Catalog, j: nat): (r: real)
    requires j < |c.frequencyArray|
    ensures 0.0 < r <= 1.0
    ensures r == 1.0 <==> c.frequencyArray[j] == FrequencyBounds(c).value.maxFreq
  {
    var b := FrequencyBounds(c).value;
    RatioInUnitInterval(c.frequencyArray[j] - b.minFreq, b.maxFreq - b.minFreq);
    (c.frequencyArray[j] - b.minFreq) as real / (b.maxFreq - b.minFreq) as real
  }

  lemma RatioInUnitInterval(num: int, den: int)
    requires 0 < num <= den
    ensures 0.0 < num as real / den as real <= 1.0
    ensures num as real / den as real == 1.0 <==> num == den
  {
    var r := num as real / den as real;
    assert r * den as real == num as real;
  }

  /** Every catalog frequency, read from the map or from the list, lies above the floor and at most the maximum. */
  lemma FrequenciesWithinBounds(c: Catalog, seen: seq<Edge>)
    requires Consistent(c, seen)
    requires |c.frequencyArray| > 0
    ensures var b := FrequencyBounds(c).value;
      forall e :: e in c.frequency ==> b.minFreq < c.frequency[e] <= b.maxFreq
  {
    ConsistentShape(c, seen);
  }

  /**
   Whenever there is at least one frequency, the shifted floor lies strictly
   below the maximum, so the normalisation denominator is positive, every
   normalised frequency lies in (0, 1], and the most frequent edge reaches 1.
   */
  lemma NormalizationBounds(c: Catalog)
    requires |c.frequencyArray| > 0
    ensures var b := FrequencyBounds(c).value;
      && b.minFreq < b.maxFreq
      && b.maxFreq - b.minFreq > 0
      && (forall j :: 0 <= j < |c.frequencyArray| ==> 0.0 < Normalized(c, j) <= 1.0)
      && (exists j :: 0 <= j < |c.frequencyArray| && Normalized(c, j) == 1.0)
  {
    var b := FrequencyBounds(c).value;
    var k :| 0 <= k < |c.frequencyArray| && c.frequencyArray[k] == b.maxFreq;
    assert Normalized(c, k) == 1.0;
  }

  /**
   The bounds are read from the frequency map: for a catalog built from at
   least one edge they exist, both are attained by some edge's frequency (the
   floor plus one), and every frequency in the map lies above the shifted
   floor and at most the maximum.
   */
  lemma CatalogBounds(c: Catalog, seen: seq<Edge>)
    requires Consistent(c, seen)
    requires |seen| > 0
    ensures FrequencyBounds(c).Success?
    ensures var b := FrequencyBounds(c).value;
      && (forall e :: e in c.frequency ==> b.minFreq < c.frequency[e] <= b.maxFreq)
      && (exists e :: e in c.frequency && c.frequency[e] == b.maxFreq)
      && (exists e :: e in c.frequency && c.frequency[e] == b.minFreq + 1)
  {
    DedupElements(seen);
    assert seen[0] in c.edges;
    FrequenciesWithinBounds(c, seen);
    var b := FrequencyBounds(c).value;
    var kMax :| 0 <= kMax < |c.frequencyArray| && c.frequencyArray[kMax] == b.maxFreq;
    var kMin :| 0 <= kMin < |c.frequencyArray| && c.frequencyArray[kMin] == b.minFreq + 1;
    assert c.edges[kMax] in c.frequency && c.frequency[c.edges[kMax]] == b.maxFreq;
    assert c.edges[kMin] in c.frequency && c.frequency[c.edges[kMin]] == b.minFreq + 1;
  }

  /** Summarising the frequencies fails exactly when no edge was visited. */
  lemma EmptyCatalogFails(c: Catalog, seen: seq<Edge>)
    requires Consistent(c, seen)
    ensures FrequencyBounds(c).Failure? <==> |seen| == 0
  {
    DedupElements(seen);
    if |seen| > 0 {
      assert seen[0] in c.edges;
    }
  }
}

=== FILE: catalogstate.dfy ===
/**
 The state of the edge catalog and the invariants that relate it to the edge
 lists visited so far.
 */
module CatalogState {
  import opened Edges

  /**
   The catalog built by the edge pass of `initializeVars`. `position` and `frequency`
   are the two hash maps, `frequencyArray` the frequency list indexed by position.
   */
  datatype Catalog = Catalog(
    edges: seq<Edge>,
    position: map<Edge, nat>,
    frequency: map<Edge, nat>,
    frequencyArray: seq<nat>)

  /** How often e occurs in the visited edge lists. */
  function Occurrences(seen: seq<Edge>, e: Edge): nat {
    multiset(seen)[e]
  }

  /**
   What the catalog pass has established after visiting the edges `seen`:
   the catalog lists the distinct edges in first-occurrence order, the position
   map inverts that list, and both frequency tables count occurrences.
   */
  ghost predicate Consistent(c: Catalog, seen: seq<Edge>) {
    && c.edges == Dedup(seen)
    && PositionsConsistent(c, seen)
    && FrequenciesConsistent(c, seen)
    && FrequencyArrayConsistent(c, seen)
  }

  /** The position map has the visited edges as keys and inverts the edge list. */
  ghost predicate PositionsConsistent(c: Catalog, seen: seq<Edge>) {
    && (forall e :: e in c.position <==> e in seen)
    && (forall k :: 0 <= k < |c.edges| ==> c.edges[k] in c.position && c.position[c.edges[k]] == k)
  }

  /** The frequency map has the visited edges as keys and counts their occurrences. */
  ghost predicate FrequenciesConsistent(c: Catalog, seen: seq<Edge>) {
    && (forall e :: e in c.frequency <==> e in seen)
    && (forall e :: e in c.frequency ==> c.frequency[e] == Occurrences(seen, e))
  }

  /** The frequency list runs parallel to the edge list and counts occurrences. */
  ghost predicate FrequencyArrayConsistent(c: Catalog, seen: seq<Edge>) {
    && |c.frequencyArray| == |c.edges|
    && (forall k :: 0 <= k < |c.frequencyArray| ==> c.frequencyArray[k] == Occurrences(seen, c.edges[k]))
  }

  /** The number of catalog edges, read as the size of the frequency map. */
  function TotalEdges(c: Catalog): nat {
    |c.frequency|
  }
}

=== FILE: edges.dfy ===
/**
 Graph primitives shared by the whole model: a directed edge between two
 variables, a DAG as the set of its edges, and the edge list of a sequence of
 DAGs read in order.
 */
module Edges {

  /** A variable, identified by its index in the common (alpha) order. */
  type Node = nat

  /** A directed edge tail -> head; two edges are equal when their endpoints are. */
  datatype Edge = Edge(tail: Node, head: Node)

  /** A DAG over the fixed variable set, identified with its set of edges. */
  type Dag = set<Edge>

  /** The set of edges listed in a sequence. */
  function Elements(s: seq<Edge>): (r: set<Edge>)
    ensures forall e :: e in r <==> e in s
  {
    set e | e in s
  }

  /** True when no edge occurs twice in the sequence. */
  predicate NoDuplicates(s: seq<Edge>) {
    forall i, j :: 0 <= i < j < |s| ==> s[i] != s[j]
  }

  /** The edge lists of all DAGs, concatenated in the order they are visited. */
  function Flatten(dags: seq<seq<Edge>>): seq<Edge> {
    if |dags| == 0 then [] else Flatten(dags[..|dags| - 1]) + dags[|dags| - 1]
  }

  lemma FlattenSnoc(dags: seq<seq<Edge>>, d: nat)
    requires d < |dags|
    ensures Flatten(dags[..d + 1]) == Flatten(dags[..d]) + dags[d]
  {
    assert dags[..d + 1][..d] == dags[..d];
  }

  /** Every edge of every DAG occurs in the flattened list, and nothing else does. */
  lemma {:induction false} FlattenElements(dags: seq<seq<Edge>>)
    ensures forall e :: e in Flatten(dags) <==> exists d :: 0 <= d < |dags| && e in dags[d]
  {
    if |dags| > 0 {
      var front := dags[..|dags| - 1];
      FlattenElements(front);
      forall e | e in Flatten(dags)
        ensures exists d :: 0 <= d < |dags| && e in dags[d]
      {
        if e in Flatten(front) {
          var d :| 0 <= d < |front| && e in front[d];
          assert e in dags[d];
        } else {
          assert e in dags[|dags| - 1];
        }
      }
      forall e | exists d :: 0 <= d < |dags| && e in dags[d]
        ensures e in Flatten(dags)
      {
        var d :| 0 <= d < |dags| && e in dags[d];
        if d < |dags| - 1 {
          assert e in front[d];
        }
      }
    }
  }

  /** Index of the first occurrence of e in s. */
  function FirstIndex(s: seq<Edge>, e: Edge): (k: nat)
    requires e in s
    ensures k < |s| && s[k] == e
    ensures forall j :: 0 <= j < k ==> s[j] != e
  {
    if s[0] == e then 0 else 1 + FirstIndex(s[1..], e)
  }

  /**
   Reference definition of the distinct edges of s in first-occurrence order:
   an edge is kept exactly when it has not been kept before.
   */
  function Dedup(s: seq<Edge>): seq<Edge> {
    if |s| == 0 then []
    else
      var kept := Dedup(s[..|s| - 1]);
      if s[|s| - 1] in kept then kept else kept + [s[|s| - 1]]
  }

  lemma {:induction false} DedupElements(s: seq<Edge>)
    ensures forall e :: e in Dedup(s) <==> e in s
  {
    if |s| > 0 {
      var front := s[..|s| - 1];
      DedupElements(front);
      assert s == front + [s[|s| - 1]];
    }
  }

  lemma {:induction false} DedupNoDuplicates(s: seq<Edge>)
    ensures NoDuplicates(Dedup(s))
  {
    if |s| > 0 {
      DedupNoDuplicates(s[..|s| - 1]);
    }
  }

  /** The first occurrence of an edge in s stays where it is when s grows. */
  lemma FirstIndexPrefix(s: seq<Edge>, t: seq<Edge>, e: Edge)
    requires e in s
    ensures e in s + t && FirstIndex(s + t, e) == FirstIndex(s, e)
  {
    var k := FirstIndex(s, e);
    assert (s + t)[k] == e;
    assert forall j :: 0 <= j < k ==> (s + t)[j] == s[j];
  }

  /**
   Dedup lists the edges of s in the order of their first occurrence in s:
   an earlier catalog entry was met strictly earlier.
   */
  lemma {:induction false} DedupFirstOccurrenceOrder(s: seq<Edge>)
    ensures forall i, j :: 0 <= i < j < |Dedup(s)| ==>
      Dedup(s)[i] in s && Dedup(s)[j] in s && FirstIndex(s, Dedup(s)[i]) < FirstIndex(s, Dedup(s)[j])
  {
    DedupElements(s);
    if |s| > 0 {
      var front := s[..|s| - 1];
      var last := s[|s| - 1];
      assert s == front + [last];
      DedupFirstOccurrenceOrder(front);
      DedupElements(front);
      var kept := Dedup(front);
      forall i, j | 0 <= i < j < |Dedup(s)|
        ensures FirstIndex(s, Dedup(s)[i]) < FirstIndex(s, Dedup(s)[j])
      {
        FirstIndexPrefix(front, [last], kept[i]);
        if j < |kept| {
          FirstIndexPrefix(front, [last], kept[j]);
        } else {
          assert Dedup(s)[j] == last && last !in front;
          assert FirstIndex(s, last) == |front|;
        }
      }
    }
  }
}

=== FILE: engine.dfy ===
/**
 The evolution engine: seeding the population, the elitist crossover step,
 one generation (evaluate, crossover, evaluate, mutate), the run over all
 generations and the whole fusion call.
 */
module Engine {
  import opened Edges
  import opened Results
  import opened CatalogState
  import opened Catalog
  import opened Genome
  import opened Fitness
  import opened Selection

  /** Ways a fusion run stops early. */
  datatype EngineError =
    | NoEdges            // the input DAGs have no edges, so the frequency bounds do not exist
    | NoBestForElitism   // crossover needs the best individual before any feasible one was evaluated

  /**
   The initial population: slot 0 encodes the greedy union built with the
   bound, slot 1 the greedy union built with bound - 1, and the remaining slots
   are the randomly drawn genomes.
   */
  function InitialPopulation(edges: seq<Edge>, greedy: Dag, greedyTighter: Dag, random: seq<Genome>)
    : (population: seq<Genome>)
    requires Shaped(random, |edges|)
    ensures |population| == |random| + 2
    ensures Shaped(population, |edges|)
    ensures Decode(edges, population[0]) == greedy * Elements(edges)
    ensures Decode(edges, population[1]) == greedyTighter * Elements(edges)
    ensures population[2..] == random
  {
    DecodeEncode(edges, greedy);
    DecodeEncode(edges, greedyTighter);
    [Encode(edges, greedy), Encode(edges, greedyTighter)] + random
  }

  /** All tournament draws of one crossover step are draws of the random source. */
  predicate ValidTournamentDraws(draws: seq<TournamentDraw>, populationSize: nat, totalEdges: nat) {
    && |draws| + 2 == populationSize
    && forall i :: 0 <= i < |draws| ==> ValidTournamentDraw(draws[i], populationSize, totalEdges)
  }

  /**
   The crossover step: slot 0 is a copy of the best individual found so far,
   slot 1 the elite of this generation among slots 1 .. n-1, and the other
   slots are tournament children. Without a best individual the step fails.
   */
  method Crossover(population: seq<Genome>, fitness: seq<real>, best: Best, draws: seq<TournamentDraw>)
    returns (r: Result<seq<Genome>, EngineError>)
    requires |population| >= 2 && |fitness| == |population|
    requires Shaped(population, |population[0]|)
    requires best.Found? ==> |best.individual| == |population[0]|
    requires ValidTournamentDraws(draws, |population|, |population[0]|)
    ensures r.Failure? <==> best.Unset?
    ensures r.Failure? ==> r.error == NoBestForElitism
    ensures r.Success? ==>
      && |r.value| == |population|
      && Shaped(r.value, |population[0]|)
      && r.value[0] == best.individual
      && (exists k :: IsEliteIndex(fitness, k) && r.value[1] == population[k])
      && (forall i :: 2 <= i < |population| ==> r.value[i] == TournamentChild(population, fitness, draws[i - 2]))
  {
    if best.Unset? {
      return Failure(NoBestForElitism);
    }
    var k := EliteIndex(fitness);
    var next := [best.individual, population[k]] + population[2..];
    var children := TournamentCrossover(population, fitness, next, draws);
    r := Success(children);
  }

  /** Mutation of every slot, slot i flipped by masks[i]. */
  function MutateAll(population: seq<Genome>, masks: seq<seq<bool>>): (r: seq<Genome>)
    requires |masks| == |population|
    requires forall i :: 0 <= i < |population| ==> |masks[i]| == |population[i]|
    ensures |r| == |population|
    ensures forall i :: 0 <= i < |r| ==> r[i] == Mutate(population[i], masks[i])
  {
    seq(|population|, i requires 0 <= i < |population| => Mutate(population[i], masks[i]))
  }

  /** The random choices of one generation: the tournament draws and one mutation mask per slot. */
  datatype GenerationDraws = GenerationDraws(tournament: seq<TournamentDraw>, masks: seq<seq<bool>>)

  predicate ValidGenerationDraws(d: GenerationDraws, populationSize: nat, totalEdges: nat) {
    && ValidTournamentDraws(d.tournament, populationSize, totalEdges)
    && |d.masks| == populationSize
    && forall i :: 0 <= i < |d.masks| ==> |d.masks[i]| == totalEdges
  }

  /** The state carried from one generation to the next. */
  datatype State = State(population: seq<Genome>, best: Best)

  /** What one generation produces: the population right after crossover and the next state. */
  datatype Step = Step(crossed: seq<Genome>, next: State)

  predicate ValidState(p: Problem, s: State) {
    && |s.population| >= 2
    && Shaped(s.population, |p.edges|)
    && BestInvariant(p, s.best)
  }

  /**
   What one successful generation from state s with draws d produces. The
   crossed population is the crossover of the evaluated one: slot 0 is the
   best individual after the first evaluation (a feasible individual, the
   previous best or a slot, at least as fit as both, and the previous best
   itself when no feasible slot beats it), slot 1 the elite and the rest
   tournament children under the first evaluation's fitnesses. The second
   evaluation leaves a best that is an individual of the crossed population
   and at least as fit as every feasible one of them, and it stays slot 0
   unless a feasible crossed slot strictly beats it; the next population is
   the crossed one mutated by the masks.
   */
  ghost predicate GenerationStep(p: Problem, s: State, d: GenerationDraws, step: Step) {
    && ValidProblem(p) && ValidState(p, s)
    && ValidGenerationDraws(d, |s.population|, |p.edges|)
    && |step.crossed| == |s.population|
    && Shaped(step.crossed, |p.edges|)
    && CarriesBest(p, s, step.crossed[0])
    && BreedsRest(p, s, d, step.crossed)
    && ValidState(p, step.next)
    && |step.next.population| == |s.population|
    && NoWorse(step.next.best, s.best)
    && KeepsBest(p, step.crossed, step.next.best)
    && step.next.population == MutateAll(step.crossed, d.masks)
  }

  /**
   Slot 0 after crossover is the best individual after the first evaluation:
   feasible, the previous best or a slot, at least as fit as both, and the
   previous best itself when no feasible slot beats it.
   */
  ghost predicate CarriesBest(p: Problem, s: State, c0: Genome) {
    && ValidProblem(p) && ValidState(p, s) && |c0| == |p.edges|
    && Feasible(p, c0)
    && (s.best.Found? ==> FitnessOf(p, c0) <= s.best.fitness)
    && (forall i :: 0 <= i < |s.population| && Feasible(p, s.population[i]) ==>
          FitnessOf(p, c0) <= FitnessOf(p, s.population[i]))
    && ((s.best.Found? && c0 == s.best.individual) ||
        exists i :: 0 <= i < |s.population| && c0 == s.population[i])
    && (s.best.Found? &&
        (forall i :: 0 <= i < |s.population| && Feasible(p, s.population[i]) ==> s.best.fitness <= FitnessOf(p, s.population[i]))
        ==> c0 == s.best.individual)
  }

  /** Slot 1 is the elite and every later slot the tournament child of its draw, under the first evaluation's fitnesses. */
  ghost predicate BreedsRest(p: Problem, s: State, d: GenerationDraws, crossed: seq<Genome>) {
    && ValidProblem(p) && ValidState(p, s)
    && ValidGenerationDraws(d, |s.population|, |p.edges|)
    && |crossed| == |s.population|
    && (exists k :: IsEliteIndex(Fitnesses(p, s.population), k) && crossed[1] == s.population[k])
    && (forall i :: 2 <= i < |s.population| ==>
          crossed[i] == TournamentChild(s.population, Fitnesses(p, s.population), d.tournament[i - 2]))
  }

  /**
   The best after the second evaluation: an individual of the crossed
   population at least as fit as every feasible one of them, and slot 0 (the
   best carried in) unless a feasible crossed slot strictly beats it.
   */
  ghost predicate KeepsBest(p: Problem, crossed: seq<Genome>, best: Best) {
    && ValidProblem(p) && |crossed| > 0 && Shaped(crossed, |p.edges|)
    && best.Found?
    && (forall i :: 0 <= i < |crossed| && Feasible(p, crossed[i]) ==> best.fitness <= FitnessOf(p, crossed[i]))
    && (exists i :: 0 <= i < |crossed| && best.individual == crossed[i])
    && ((forall i :: 0 <= i < |crossed| && Feasible(p, crossed[i]) ==> FitnessOf(p, crossed[0]) <= FitnessOf(p, crossed[i]))
        ==> best.individual == crossed[0])
  }

  /**
   One generation: evaluate, crossover, evaluate again, mutate. It fails
   exactly when there is no best yet and no slot of the population is feasible;
   otherwise it takes a generation step.
   */
  method Generation(p: Problem, s: State, draws: GenerationDraws) returns (r: Result<Step, EngineError>)
    requires ValidProblem(p) && ValidState(p, s)
    requires ValidGenerationDraws(draws, |s.population|, |p.edges|)
    ensures r.Failure? <==> s.best.Unset? && forall i :: 0 <= i < |s.population| ==> !Feasible(p, s.population[i])
    ensures r.Failure? ==> r.error == NoBestForElitism
    ensures r.Success? ==> GenerationStep(p, s, draws, r.value)
  {
    var fitness1, treeWidths1, best1 := Evaluate(p, s.population, s.best);
    var crossed := Crossover(s.population, fitness1, best1, draws.tournament);
    if crossed.Failure? {
      return Failure(crossed.error);
    }
    var population := crossed.value;
    assert best1.Found?;
    var fitness2, treeWidths2, best2 := Evaluate(p, population, best1);
    var mutated := MutateAll(population, draws.masks);
    r := Success(Step(population, State(mutated, best2)));
  }

  /** The states of a run, before the first generation and after each one, and each generation's crossed population. */
  datatype Trace = Trace(states: seq<State>, crossed: seq<seq<Genome>>)

  /** t is a run from the initial population: it starts without a best and each generation is a generation step. */
  ghost predicate IsRun(p: Problem, population: seq<Genome>, draws: seq<GenerationDraws>, t: Trace) {
    && |t.states| == |draws| + 1
    && |t.crossed| == |draws|
    && t.states[0] == State(population, Unset)
    && forall g :: 0 <= g < |draws| ==> GenerationStep(p, t.states[g], draws[g], Step(t.crossed[g], t.states[g + 1]))
  }

  /** The best solution never gets worse from one state to a later one. */
  predicate NonIncreasing(states: seq<State>) {
    forall i, j :: 0 <= i <= j < |states| ==> NoWorse(states[j].best, states[i].best)
  }

  /**
   The generation loop: one generation per entry of `draws`. The run fails
   exactly when it has a generation and the initial population has no
   feasible slot. Otherwise it is a run: the best never gets worse, always
   satisfies the best-solution invariant, and ends at least as fit as every
   feasible individual evaluated, in the populations before crossover and in
   the crossed ones.
   */
  method Run(p: Problem, population: seq<Genome>, draws: seq<GenerationDraws>)
    returns (r: Result<Trace, EngineError>)
    requires ValidProblem(p)
    requires |population| >= 2 && Shaped(population, |p.edges|)
    requires forall j :: 0 <= j < |draws| ==> ValidGenerationDraws(draws[j], |population|, |p.edges|)
    ensures r.Failure? <==> |draws| > 0 && forall i :: 0 <= i < |population| ==> !Feasible(p, population[i])
    ensures r.Failure? ==> r.error == NoBestForElitism
    ensures r.Success? ==>
      && IsRun(p, population, draws, r.value)
      && (forall g :: 0 <= g <= |draws| ==>
            ValidState(p, r.value.states[g]) && |r.value.states[g].population| == |population|)
      && (forall g :: 0 <= g < |draws| ==>
            |r.value.crossed[g]| == |population| && Shaped(r.value.crossed[g], |p.edges|))
      && NonIncreasing(r.value.states)
      && (|draws| > 0 ==> r.value.states[|draws|].best.Found?)
      && (forall g, i :: 0 <= g < |draws| && 0 <= i < |population| && Feasible(p, r.value.states[g].population[i]) ==>
            r.value.states[|draws|].best.fitness <= FitnessOf(p, r.value.states[g].population[i]))
      && (forall g, i :: 0 <= g < |draws| && 0 <= i < |population| && Feasible(p, r.value.crossed[g][i]) ==>
            r.value.states[|draws|].best.fitness <= FitnessOf(p, r.value.crossed[g][i]))
  {
    var s := State(population, Unset);
    var states := [s];
    var crossed: seq<seq<Genome>> := [];
    var g := 0;
    while g < |draws|
      invariant g <= |draws|
      invariant |states| == g + 1 && |crossed| == g
      invariant states[0] == State(population, Unset) && states[g] == s
      invariant forall h :: 0 <= h <= g ==> ValidState(p, states[h]) && |states[h].population| == |population|
      invariant forall h :: 0 <= h < g ==> |crossed[h]| == |population| && Shaped(crossed[h], |p.edges|)
      invariant IsRun(p, population, draws[..g], Trace(states, crossed))
      invariant NonIncreasing(states)
      invariant g > 0 ==> s.best.Found?
      invariant g > 0 ==> exists i :: 0 <= i < |population| && Feasible(p, population[i])
    {
      var step := Generation(p, s, draws[g]);
      if step.Failure? {
        return Failure(step.error);
      }
      IsRunExtend(p, population, draws, Trace(states, crossed), g, step.value);
      crossed := crossed + [step.value.crossed];
      s := step.value.next;
      states := states + [s];
      g := g + 1;
    }
    assert draws[..g] == draws;
    r := Success(Trace(states, crossed));
    if |draws| > 0 {
      RunEndsWithBest(p, population, draws, r.value);
    }
  }

  /** A run over the first g generations followed by a generation step is a run over the first g + 1. */
  lemma IsRunExtend(p: Problem, population: seq<Genome>, draws: seq<GenerationDraws>, t: Trace, g: nat, step: Step)
    requires g < |draws|
    requires IsRun(p, population, draws[..g], t)
    requires GenerationStep(p, t.states[g], draws[g], step)
    ensures IsRun(p, population, draws[..g + 1], Trace(t.states + [step.next], t.crossed + [step.crossed]))
  {
    var t' := Trace(t.states + [step.next], t.crossed + [step.crossed]);
    forall h | 0 <= h < g + 1
      ensures GenerationStep(p, t'.states[h], draws[..g + 1][h], Step(t'.crossed[h], t'.states[h + 1]))
    {
      assert draws[..g + 1][h] == draws[h];
      if h < g {
        assert draws[..g][h] == draws[h];
        assert GenerationStep(p, t.states[h], draws[..g][h], Step(t.crossed[h], t.states[h + 1]));
      }
    }
  }

  /**
   The final best of a run is at least as fit as every feasible individual
   the run evaluated: each generation's best beats the population before
   crossover (through slot 0) and the crossed population, and later bests are
   no worse.
   */
  lemma RunEndsWithBest(p: Problem, population: seq<Genome>, draws: seq<GenerationDraws>, t: Trace)
    requires ValidProblem(p) && IsRun(p, population, draws, t) && |draws| > 0
    requires forall g :: 0 <= g <= |draws| ==> |t.states[g].population| == |population|
    requires forall g :: 0 <= g < |draws| ==> |t.crossed[g]| == |population|
    requires forall g, i :: 0 <= g <= |draws| && 0 <= i < |population| ==> |t.states[g].population[i]| == |p.edges|
    requires forall g, i :: 0 <= g < |draws| && 0 <= i < |population| ==> |t.crossed[g][i]| == |p.edges|
    requires NonIncreasing(t.states)
    ensures t.states[|draws|].best.Found?
    ensures forall g, i :: 0 <= g < |draws| && 0 <= i < |population| && Feasible(p, t.states[g].population[i]) ==>
      t.states[|draws|].best.fitness <= FitnessOf(p, t.states[g].population[i])
    ensures forall g, i :: 0 <= g < |draws| && 0 <= i < |population| && Feasible(p, t.crossed[g][i]) ==>
      t.states[|draws|].best.fitness <= FitnessOf(p, t.crossed[g][i])
  {
    var n := |draws|;
    assert GenerationStep(p, t.states[n - 1], draws[n - 1], Step(t.crossed[n - 1], t.states[n]));
    forall g, i | 0 <= g < n && 0 <= i < |population| && Feasible(p, t.states[g].population[i])
      ensures t.states[n].best.fitness <= FitnessOf(p, t.states[g].population[i])
    {
      assert GenerationStep(p, t.states[g], draws[g], Step(t.crossed[g], t.states[g + 1]));
      assert NoWorse(t.states[n].best, t.states[g + 1].best);
    }
    forall g, i | 0 <= g < n && 0 <= i < |population| && Feasible(p, t.crossed[g][i])
      ensures t.states[n].best.fitness <= FitnessOf(p, t.crossed[g][i])
    {
      assert GenerationStep(p, t.states[g], draws[g], Step(t.crossed[g], t.states[g + 1]));
      assert NoWorse(t.states[n].best, t.states[g + 1].best);
    }
  }

  /** The DAG a run reports: the final best's DAG, or None when no best was recorded. */
  function FinalDag(t: Trace): Option<Dag>
    requires |t.states| > 0
  {
    var best := t.states[|t.states| - 1].best;
    if best.Found? then Some(best.dag) else None
  }

  /**
   Seeding and the generation loop over a built catalog. The result is what a
   run from the seeds reports. Without generations it is None (no best DAG was
   recorded). With generations the run fails exactly when no seed is feasible
   (the first crossover finds no best individual), and otherwise returns the
   run's final best DAG. That DAG consists of catalog edges, is feasible, and
   is never further from the full union than the greedy seed when that seed is
   feasible.
   */
  method Optimize(
    edges: seq<Edge>, fullUnion: Dag, bound: nat,
    treewidth: Dag -> nat, smhd: (Dag, Dag) -> Distance,
    greedy: Dag, greedyTighter: Dag, random: seq<Genome>, draws: seq<GenerationDraws>)
    returns (r: Result<Option<Dag>, EngineError>)
    requires bound >= 1
    requires Shaped(random, |edges|)
    requires forall j :: 0 <= j < |draws| ==> ValidGenerationDraws(draws[j], |random| + 2, |edges|)
    ensures r.Failure? ==> r.error == NoBestForElitism
    ensures var p := Problem(edges, fullUnion, bound, treewidth, smhd);
      var seeds := InitialPopulation(edges, greedy, greedyTighter, random);
      && (r.Failure? <==> |draws| > 0 && forall i :: 0 <= i < |seeds| ==> !Feasible(p, seeds[i]))
      && (r.Success? ==> exists t :: IsRun(p, seeds, draws, t) && r.value == FinalDag(t))
    ensures |draws| == 0 ==> r == Success(None)
    ensures |draws| > 0 && r.Success? ==> r.value.Some?
    ensures r.Success? && r.value.Some? ==> r.value.value <= Elements(edges) && treewidth(r.value.value) <= bound
    ensures |draws| > 0 && treewidth(greedy * Elements(edges)) <= bound ==>
      && r.Success? && r.value.Some?
      && smhd(r.value.value, fullUnion) <= smhd(greedy * Elements(edges), fullUnion)
  {
    var p := Problem(edges, fullUnion, bound, treewidth, smhd);
    var population := InitialPopulation(edges, greedy, greedyTighter, random);
    var run := Run(p, population, draws);
    if run.Failure? {
      return Failure(run.error);
    }
    var best := run.value.states[|draws|].best;
    if best.Unset? {
      r := Success(None);
    } else {
      r := Success(Some(best.dag));
    }
    assert IsRun(p, population, draws, run.value) && r.value == FinalDag(run.value);
  }

  /**
   The whole fusion call: build the catalog from the reconciled DAGs' edge
   lists, fail when there are no edges, then seed the population and run the
   generations over the catalog, failing, returning None or returning the final
   best DAG exactly as a run from the seeds does. A returned DAG uses only input edges and is feasible, and
   it is never further from the full union than a feasible greedy seed.
   */
  method FusionUnion(
    dags: seq<seq<Edge>>, fullUnion: Dag, bound: nat,
    treewidth: Dag -> nat, smhd: (Dag, Dag) -> Distance,
    greedy: Dag, greedyTighter: Dag, random: seq<Genome>, draws: seq<GenerationDraws>)
    returns (r: Result<Option<Dag>, EngineError>)
    requires bound >= 1
    requires Shaped(random, CatalogSize(dags))
    requires forall j :: 0 <= j < |draws| ==> ValidGenerationDraws(draws[j], |random| + 2, CatalogSize(dags))
    ensures r.Failure? && r.error == NoEdges <==> InputEdges(dags) == {}
    ensures InputEdges(dags) != {} ==>
      var p := Problem(CatalogEdges(dags), fullUnion, bound, treewidth, smhd);
      var seeds := InitialPopulation(CatalogEdges(dags), greedy, greedyTighter, random);
      && (r.Failure? <==> |draws| > 0 && forall i :: 0 <= i < |seeds| ==> !Feasible(p, seeds[i]))
      && (r.Success? ==> exists t :: IsRun(p, seeds, draws, t) && r.value == FinalDag(t))
    ensures InputEdges(dags) != {} && |draws| == 0 ==> r == Success(None)
    ensures |draws| > 0 && r.Success? ==> r.value.Some?
    ensures r.Success? && r.value.Some? ==> r.value.value <= InputEdges(dags) && treewidth(r.value.value) <= bound
    ensures InputEdges(dags) != {} && |draws| > 0 && treewidth(greedy * InputEdges(dags)) <= bound ==>
      && r.Success? && r.value.Some?
      && smhd(r.value.value, fullUnion) <= smhd(greedy * InputEdges(dags), fullUnion)
  {
    var catalog := BuildCatalog(dags);
    BuiltCatalogFacts(catalog, dags);
    var bounds := FrequencyBounds(catalog);
    if bounds.Failure? {
      return Failure(NoEdges);
    }
    r := Optimize(catalog.edges, fullUnion, bound, treewidth, smhd, greedy, greedyTighter, random, draws);
  }
}

=== FILE: fitness.dfy ===
/**
 Fitness evaluation: the tree-width penalty on the distance to the full union,
 and the tracking of the best feasible individual seen so far. Tree-width and
 the structural distance are supplied by the caller.
 */
module Fitness {
  import opened Edges
  import opened Genome

  /** A structural distance between two DAGs is never negative. */
  type Distance = r: real | r >= 0.0

  /**
   The fixed inputs of a fusion run: the catalog edges, the full union used as
   the fitness target, the tree-width bound, and the two external metrics.
   */
  datatype Problem = Problem(
    edges: seq<Edge>,
    fullUnion: Dag,
    bound: nat,
    treewidth: Dag -> nat,
    smhd: (Dag, Dag) -> Distance)

  /** The bound is a positive tree-width. */
  predicate ValidProblem(p: Problem) {
    p.bound >= 1
  }

  /**
   The fitness of a DAG from its distance and tree-width: the distance itself
   when the tree-width is within the bound, otherwise the distance scaled by
   tree-width / bound.
   */
  function Penalty(distance: real, treewidth: nat, bound: nat): (f: real)
    requires distance >= 0.0 && bound >= 1
    ensures treewidth <= bound ==> f == distance
    ensures treewidth > bound ==> f * bound as real == distance * treewidth as real
    ensures f >= distance
    ensures treewidth > bound && distance > 0.0 ==> f > distance
  {
    if treewidth > bound then distance * (treewidth as real / bound as real) else distance
  }

  /** The penalty never decreases as the tree-width grows. */
  lemma PenaltyMonotone(distance: real, tw1: nat, tw2: nat, bound: nat)
    requires distance >= 0.0 && bound >= 1
    requires tw1 <= tw2
    ensures Penalty(distance, tw1, bound) <= Penalty(distance, tw2, bound)
  {
    var b := bound as real;
    if tw1 > bound {
      DivideMonotone(tw1 as real, tw2 as real, b);
      MultiplyMonotone(distance, tw1 as real / b, tw2 as real / b);
      assert Penalty(distance, tw1, bound) == distance * (tw1 as real / b);
      assert Penalty(distance, tw2, bound) == distance * (tw2 as real / b);
    } else {
      assert Penalty(distance, tw1, bound) == distance;
    }
  }

  lemma DivideMonotone(x: real, y: real, b: real)
    requires b > 0.0 && x <= y
    ensures x / b <= y / b
  {
    assert (y / b - x / b) * b == y - x;
  }

  lemma MultiplyMonotone(d: real, x: real, y: real)
    requires d >= 0.0 && x <= y
    ensures d * x <= d * y
  {
  }

  /** The DAG a genome stands for. */
  function DagOf(p: Problem, g: Genome): Dag
    requires |g| == |p.edges|
  {
    Decode(p.edges, g)
  }

  /** The tree-width of a genome's DAG. */
  function TreeWidthOf(p: Problem, g: Genome): nat
    requires |g| == |p.edges|
  {
    p.treewidth(DagOf(p, g))
  }

  /**
   The fitness of a genome: the distance from its DAG to the full union when
   the genome is feasible, otherwise that distance scaled by tree-width / bound,
   which is never below the distance and above it when the distance is positive.
   */
  function FitnessOf(p: Problem, g: Genome): (f: real)
    requires ValidProblem(p) && |g| == |p.edges|
    ensures Feasible(p, g) ==> f == p.smhd(DagOf(p, g), p.fullUnion)
    ensures !Feasible(p, g) ==> f * p.bound as real == p.smhd(DagOf(p, g), p.fullUnion) * TreeWidthOf(p, g) as real
    ensures f >= p.smhd(DagOf(p, g), p.fullUnion)
    ensures !Feasible(p, g) && p.smhd(DagOf(p, g), p.fullUnion) > 0.0 ==> f > p.smhd(DagOf(p, g), p.fullUnion)
  {
    Penalty(p.smhd(DagOf(p, g), p.fullUnion), TreeWidthOf(p, g), p.bound)
  }

  /** A genome is feasible when its DAG's tree-width is within the bound. */
  predicate Feasible(p: Problem, g: Genome)
    requires |g| == |p.edges|
  {
    TreeWidthOf(p, g) <= p.bound
  }

  /**
   The best solution of the run: unset until the first feasible individual is
   evaluated, afterwards a copy of that genome, its DAG and its fitness.
   */
  datatype Best = Unset | Found(individual: Genome, dag: Dag, fitness: real)

  /** A fitness beats the best when there is no best yet or it is strictly lower. */
  predicate Improves(fitness: real, best: Best) {
    best.Unset? || fitness < best.fitness
  }

  /**
   What a best solution always satisfies: its DAG is the decoding of its
   genome, it is feasible, and its fitness is the raw distance of that DAG.
   */
  predicate BestInvariant(p: Problem, best: Best) {
    best.Found? ==>
      && |best.individual| == |p.edges|
      && best.dag == DagOf(p, best.individual)
      && Feasible(p, best.individual)
      && best.fitness == p.smhd(best.dag, p.fullUnion)
  }

  /** b' is at least as good as b: once set it stays set and its fitness never rises. */
  predicate NoWorse(b': Best, b: Best) {
    b.Found? ==> b'.Found? && b'.fitness <= b.fitness
  }

  /** The outcome of evaluating one individual. */
  datatype Evaluation = Evaluation(fitness: real, treewidth: nat, best: Best)

  /**
   Evaluate one individual: score its DAG and replace the best when the
   individual is feasible and strictly improves on it.
   */
  function CalculateFitness(p: Problem, g: Genome, best: Best): (r: Evaluation)
    requires ValidProblem(p) && |g| == |p.edges|
    ensures r.treewidth == TreeWidthOf(p, g)
    ensures r.fitness == FitnessOf(p, g)
    ensures r.best == best || r.best == Found(g, DagOf(p, g), r.fitness)
    ensures r.best != best <==> Feasible(p, g) && Improves(r.fitness, best)
    ensures BestInvariant(p, best) ==> BestInvariant(p, r.best)
    ensures NoWorse(r.best, best)
    ensures Feasible(p, g) ==> r.best.Found? && r.best.fitness <= r.fitness
  {
    var dag := DagOf(p, g);
    var tw := p.treewidth(dag);
    var fitness := Penalty(p.smhd(dag, p.fullUnion), tw, p.bound);
    if Improves(fitness, best) && tw <= p.bound then
      Evaluation(fitness, tw, Found(g, dag, fitness))
    else
      Evaluation(fitness, tw, best)
  }

  /** The fitness of every slot of a population, in slot order. */
  function Fitnesses(p: Problem, population: seq<Genome>): (f: seq<real>)
    requires ValidProblem(p) && Shaped(population, |p.edges|)
    ensures |f| == |population|
    ensures forall i :: 0 <= i < |population| ==> f[i] == FitnessOf(p, population[i])
  {
    seq(|population|, i requires 0 <= i < |population| => FitnessOf(p, population[i]))
  }

  /**
   One evaluation phase, slot after slot: record each slot's fitness and
   tree-width and track the best feasible individual. The resulting best is
   the old one or a slot of this population, it is no worse than the old one,
   it is at least as good as every feasible slot, and it stays the old one
   when no feasible slot strictly improves on it.
   */
  method Evaluate(p: Problem, population: seq<Genome>, best: Best)
    returns (fitness: seq<real>, treeWidths: seq<nat>, best': Best)
    requires ValidProblem(p) && Shaped(population, |p.edges|)
    ensures |fitness| == |population| && |treeWidths| == |population|
    ensures fitness == Fitnesses(p, population)
    ensures forall i :: 0 <= i < |population| ==> treeWidths[i] == TreeWidthOf(p, population[i])
    ensures BestInvariant(p, best) ==> BestInvariant(p, best')
    ensures NoWorse(best', best)
    ensures forall i :: 0 <= i < |population| && Feasible(p, population[i]) ==>
      best'.Found? && best'.fitness <= fitness[i]
    ensures best' == best || exists i :: 0 <= i < |population| && best'.Found? && best'.individual == population[i]
    ensures (forall i :: 0 <= i < |population| ==> !(Feasible(p, population[i]) && Improves(fitness[i], best))) ==> best' == best
  {
    fitness := [];
    treeWidths := [];
    best' := best;
    var i := 0;
    while i < |population|
      invariant i <= |population|
      invariant |fitness| == i && |treeWidths| == i
      invariant forall j :: 0 <= j < i ==> fitness[j] == FitnessOf(p, population[j])
      invariant forall j :: 0 <= j < i ==> treeWidths[j] == TreeWidthOf(p, population[j])
      invariant BestInvariant(p, best) ==> BestInvariant(p, best')
      invariant NoWorse(best', best)
      invariant forall j :: 0 <= j < i && Feasible(p, population[j]) ==> best'.Found? && best'.fitness <= fitness[j]
      invariant best' == best || exists j :: 0 <= j < i && best'.Found? && best'.individual == population[j]
      invariant (forall j :: 0 <= j < i ==> !(Feasible(p, population[j]) && Improves(fitness[j], best))) ==> best' == best
    {
      var r := CalculateFitness(p, population[i], best');
      fitness := fitness + [r.fitness];
      treeWidths := treeWidths + [r.treewidth];
      best' := r.best;
      i := i + 1;
    }
  }
}

=== FILE: genome.dfy ===
/**
 Genomes: one bit per catalog edge. Encoding reads a seed DAG's edge
 membership; decoding builds the DAG of the set bits.
 */
module Genome {
  import opened Edges

  type Genome = seq<bool>

  /** Every genome of the population has one bit per catalog edge. */
  predicate Shaped(population: seq<Genome>, totalEdges: nat) {
    forall i :: 0 <= i < |population| ==> |population[i]| == totalEdges
  }

  /** Bit j records whether the seed DAG contains catalog edge j. */
  function Encode(edges: seq<Edge>, dag: Dag): (g: Genome)
    ensures |g| == |edges|
    ensures forall j :: 0 <= j < |g| ==> (g[j] <==> edges[j] in dag)
  {
    seq(|edges|, j requires 0 <= j < |edges| => edges[j] in dag)
  }

  /** The DAG of a genome: exactly the catalog edges whose bit is set. */
  function Decode(edges: seq<Edge>, g: Genome): (dag: Dag)
    requires |g| == |edges|
    ensures dag <= Elements(edges)
    ensures forall j :: 0 <= j < |g| && g[j] ==> edges[j] in dag
  {
    set j | 0 <= j < |g| && g[j] :: edges[j]
  }

  /** On a duplicate-free catalog an edge is decoded exactly when its own bit is set. */
  lemma DecodeMembership(edges: seq<Edge>, g: Genome, j: nat)
    requires |g| == |edges| && NoDuplicates(edges)
    requires j < |edges|
    ensures edges[j] in Decode(edges, g) <==> g[j]
  {
    if edges[j] in Decode(edges, g) {
      var i :| 0 <= i < |g| && g[i] && edges[i] == edges[j];
      assert i == j;
    }
  }

  /** Decoding the encoding of a seed DAG gives back the seed's catalog edges. */
  lemma DecodeEncode(edges: seq<Edge>, dag: Dag)
    ensures Decode(edges, Encode(edges, dag)) == dag * Elements(edges)
  {
    var g := Encode(edges, dag);
    forall e | e in dag * Elements(edges)
      ensures e in Decode(edges, g)
    {
      var j :| 0 <= j < |edges| && edges[j] == e;
    }
  }

  /** On a duplicate-free catalog, encoding the decoded DAG gives back the genome. */
  lemma EncodeDecode(edges: seq<Edge>, g: Genome)
    requires |g| == |edges| && NoDuplicates(edges)
    ensures Encode(edges, Decode(edges, g)) == g
  {
    var g' := Encode(edges, Decode(edges, g));
    forall j | 0 <= j < |g|
      ensures g'[j] == g[j]
    {
      DecodeMembership(edges, g, j);
    }
  }

  /** On a duplicate-free catalog, distinct genomes decode to distinct DAGs. */
  lemma DecodeInjective(edges: seq<Edge>, g1: Genome, g2: Genome)
    requires |g1| == |edges| && |g2| == |edges| && NoDuplicates(edges)
    requires Decode(edges, g1) == Decode(edges, g2)
    ensures g1 == g2
  {
    EncodeDecode(edges, g1);
    EncodeDecode(edges, g2);
  }

  /**
   Mutation with its random decisions given: bit j is flipped exactly when
   mask[j] is set (the draw fell below that bit's removal or addition rate).
   */
  function Mutate(g: Genome, mask: seq<bool>): (m: Genome)
    requires |mask| == |g|
    ensures |m| == |g|
    ensures forall j :: 0 <= j < |g| ==> (m[j] != g[j] <==> mask[j])
  {
    seq(|g|, j requires 0 <= j < |g| => if mask[j] then !g[j] else g[j])
  }

  /**
   Mutation removes the masked edges the genome had and adds the masked edges
   it lacked; every unmasked edge keeps its state.
   */
  lemma MutateDecode(edges: seq<Edge>, g: Genome, mask: seq<bool>)
    requires |g| == |edges| && |mask| == |g| && NoDuplicates(edges)
    ensures forall j :: 0 <= j < |g| ==>
      (edges[j] in Decode(edges, Mutate(g, mask)) <==> ((edges[j] in Decode(edges, g)) != mask[j]))
  {
    forall j | 0 <= j < |g|
      ensures edges[j] in Decode(edges, Mutate(g, mask)) <==> ((edges[j] in Decode(edges, g)) != mask[j])
    {
      DecodeMembership(edges, g, j);
      DecodeMembership(edges, Mutate(g, mask), j);
    }
  }

  /** Applying the same mask twice restores the genome, and an empty mask changes nothing. */
  lemma MutateInvolution(g: Genome, mask: seq<bool>)
    requires |mask| == |g|
    ensures Mutate(Mutate(g, mask), mask) == g
    ensures (forall j :: 0 <= j < |mask| ==> !mask[j]) ==> Mutate(g, mask) == g
  {
  }
}

=== FILE: results.dfy ===
/** Failure-carrying result types used where the Java code would throw or leave a field null. */
module Results {

  /** A value that may be absent (a Java field that may still be null). */
  datatype Option<+T> = None | Some(value: T)

  /** The outcome of an operation that may fail with an error. */
  datatype Result<+T, +E> = Success(value: T) | Failure(error: E)
}

=== FILE: selection.dfy ===
/**
 Selection and crossover with the random draws given as arguments: the elite
 scan, tournament one-point crossover, roulette-wheel index lookup and the
 per-bit uniform merge.
 */
module Selection {
  import opened Edges
  import opened Genome

  /**
   k is the best slot of the generation outside slot 0: the first index in
   1 .. n-1 whose fitness is minimal over that range.
   */
  predicate IsEliteIndex(fitness: seq<real>, k: int) {
    && 1 <= k < |fitness|
    && (forall i :: 1 <= i < |fitness| ==> fitness[k] <= fitness[i])
    && (forall i :: 1 <= i < k ==> fitness[k] < fitness[i])
  }

  /** The elite scan of the crossover step over slots 1 .. n-1. */
  method EliteIndex(fitness: seq<real>) returns (k: nat)
    requires |fitness| >= 2
    ensures IsEliteIndex(fitness, k)
  {
    k := 1;
    var best := fitness[1];
    var i := 2;
    while i < |fitness|
      invariant 2 <= i <= |fitness|
      invariant 1 <= k < i
      invariant best == fitness[k]
      invariant forall j :: 1 <= j < i ==> best <= fitness[j]
      invariant forall j :: 1 <= j < k ==> best < fitness[j]
    {
      if fitness[i] < best {
        best := fitness[i];
        k := i;
      }
      i := i + 1;
    }
  }

  /** The elite index is determined by the fitness values; with two slots it is slot 1. */
  lemma EliteIndexUnique(fitness: seq<real>, k1: int, k2: int)
    requires IsEliteIndex(fitness, k1) && IsEliteIndex(fitness, k2)
    ensures k1 == k2
    ensures |fitness| == 2 ==> k1 == 1
  {
    assert fitness[k1] == fitness[k2];
  }

  /** The random choices behind one tournament child: four parents and a cut point. */
  datatype TournamentDraw = TournamentDraw(i1: nat, i2: nat, i3: nat, i4: nat, cut: nat)

  /** Draws as the random source produces them: indices below the population size, cut below the catalog size. */
  predicate ValidTournamentDraw(d: TournamentDraw, populationSize: nat, totalEdges: nat) {
    d.i1 < populationSize && d.i2 < populationSize && d.i3 < populationSize && d.i4 < populationSize
    && d.cut < totalEdges
  }

  /**
   The winner of a two-way tournament: a when its fitness is strictly lower,
   otherwise b (ties go to the second candidate).
   */
  function Winner(fitness: seq<real>, a: nat, b: nat): (w: nat)
    requires a < |fitness| && b < |fitness|
    ensures w == a || w == b
    ensures fitness[w] <= fitness[a] && fitness[w] <= fitness[b]
    ensures fitness[a] == fitness[b] ==> w == b
  {
    if fitness[a] < fitness[b] then a else b
  }

  /**
   One tournament child: positions before the cut copy the winner of (i1, i2),
   positions from the cut on copy the winner of (i3, i4).
   */
  function TournamentChild(population: seq<Genome>, fitness: seq<real>, d: TournamentDraw): (child: Genome)
    requires |fitness| == |population| && |population| > 0
    requires Shaped(population, |population[0]|)
    requires ValidTournamentDraw(d, |population|, |population[0]|)
    ensures |child| == |population[0]|
    ensures forall j :: 0 <= j < d.cut ==> child[j] == population[Winner(fitness, d.i1, d.i2)][j]
    ensures forall j :: d.cut <= j < |child| ==> child[j] == population[Winner(fitness, d.i3, d.i4)][j]
  {
    var front := population[Winner(fitness, d.i1, d.i2)];
    var back := population[Winner(fitness, d.i3, d.i4)];
    front[..d.cut] + back[d.cut..]
  }

  /** When both tournaments pick the same individual the child is a copy of it. */
  lemma TournamentChildOfOneParent(population: seq<Genome>, fitness: seq<real>, d: TournamentDraw)
    requires |fitness| == |population| && |population| > 0
    requires Shaped(population, |population[0]|)
    requires ValidTournamentDraw(d, |population|, |population[0]|)
    requires Winner(fitness, d.i1, d.i2) == Winner(fitness, d.i3, d.i4)
    ensures TournamentChild(population, fitness, d) == population[Winner(fitness, d.i1, d.i2)]
  {
    var child := TournamentChild(population, fitness, d);
    var w := Winner(fitness, d.i1, d.i2);
    assert child == population[w];
  }

  /**
   Tournament crossover: slots 0 and 1 of the new population are left as
   given, every later slot i receives the child of draw i - 2.
   */
  method TournamentCrossover(population: seq<Genome>, fitness: seq<real>, next: seq<Genome>, draws: seq<TournamentDraw>)
    returns (r: seq<Genome>)
    requires |population| >= 2 && |fitness| == |population| && |next| == |population|
    requires Shaped(population, |population[0]|) && Shaped(next, |population[0]|)
    requires |draws| == |population| - 2
    requires forall i :: 0 <= i < |draws| ==> ValidTournamentDraw(draws[i], |population|, |population[0]|)
    ensures |r| == |population|
    ensures r[0] == next[0] && r[1] == next[1]
    ensures forall i :: 2 <= i < |r| ==> r[i] == TournamentChild(population, fitness, draws[i - 2])
    ensures Shaped(r, |population[0]|)
  {
    r := next;
    var i := 2;
    while i < |population|
      invariant 2 <= i <= |population|
      invariant |r| == |population|
      invariant Shaped(r, |population[0]|)
      invariant r[0] == next[0] && r[1] == next[1]
      invariant forall j :: 2 <= j < i ==> r[j] == TournamentChild(population, fitness, draws[j - 2])
    {
      r := r[i := TournamentChild(population, fitness, draws[i - 2])];
      i := i + 1;
    }
  }

  /**
   k is what the roulette lookup returns for draw x: the first index whose
   cumulative weight reaches x, or the last index when none does.
   */
  predicate IsRouletteIndex(cumulative: seq<real>, x: real, k: int) {
    && 0 <= k < |cumulative|
    && (forall j :: 0 <= j < k ==> cumulative[j] < x)
    && (x <= cumulative[k] || k == |cumulative| - 1)
  }

  /**
   Inverse-CDF lookup: scan the cumulative weights for the first one at least
   the draw, falling back to the last index (-1 for an empty array).
   */
  method IndexByCumulative(cumulative: seq<real>, x: real) returns (k: int)
    ensures |cumulative| == 0 ==> k == -1
    ensures |cumulative| > 0 ==> IsRouletteIndex(cumulative, x, k)
  {
    k := 0;
    while k < |cumulative|
      invariant 0 <= k <= |cumulative|
      invariant forall j :: 0 <= j < k ==> cumulative[j] < x
    {
      if x <= cumulative[k] {
        return;
      }
      k := k + 1;
    }
    k := |cumulative| - 1;
  }

  /** The roulette lookup is determined by the draw: at most one index qualifies. */
  lemma RouletteIndexUnique(cumulative: seq<real>, x: real, k1: int, k2: int)
    requires IsRouletteIndex(cumulative, x, k1) && IsRouletteIndex(cumulative, x, k2)
    ensures k1 == k2
  {
  }

  /**
   On a nondecreasing cumulative array the roulette index is the interval
   that contains the draw: every earlier weight is below it and, unless the
   lookup fell back to the last index, every later one reaches it.
   */
  lemma RouletteInterval(cumulative: seq<real>, x: real, k: int)
    requires forall i, j :: 0 <= i <= j < |cumulative| ==> cumulative[i] <= cumulative[j]
    requires IsRouletteIndex(cumulative, x, k)
    requires x <= cumulative[|cumulative| - 1]
    ensures forall j :: k <= j < |cumulative| ==> x <= cumulative[j]
    ensures forall j :: 0 <= j < |cumulative| ==> (x <= cumulative[j] <==> k <= j)
  {
  }

  /** Per-bit merge: bit j comes from the first parent when coin j is set, otherwise from the second. */
  function UniformChild(p1: Genome, p2: Genome, coins: seq<bool>): (child: Genome)
    requires |p1| == |p2| == |coins|
    ensures |child| == |p1|
    ensures forall j :: 0 <= j < |child| ==> (coins[j] ==> child[j] == p1[j]) && (!coins[j] ==> child[j] == p2[j])
    ensures forall j :: 0 <= j < |child| ==> child[j] == p1[j] || child[j] == p2[j]
    ensures forall j :: 0 <= j < |child| && p1[j] == p2[j] ==> child[j] == p1[j]
  {
    seq(|p1|, j requires 0 <= j < |p1| => if coins[j] then p1[j] else p2[j])
  }

  /**
   The merged child keeps every edge both parents share and contains no
   edge that neither parent has.
   */
  lemma UniformChildDecode(edges: seq<Edge>, p1: Genome, p2: Genome, coins: seq<bool>)
    requires |p1| == |edges| && |p2| == |edges| && |coins| == |edges|
    requires NoDuplicates(edges)
    ensures Decode(edges, p1) * Decode(edges, p2) <= Decode(edges, UniformChild(p1, p2, coins))
    ensures Decode(edges, UniformChild(p1, p2, coins)) <= Decode(edges, p1) + Decode(edges, p2)
  {
    var child := UniformChild(p1, p2, coins);
    forall e | e in Decode(edges, child)
      ensures e in Decode(edges, p1) + Decode(edges, p2)
    {
      var j :| 0 <= j < |child| && child[j] && edges[j] == e;
    }
    forall e | e in Decode(edges, p1) * Decode(edges, p2)
      ensures e in Decode(edges, child)
    {
      var j :| 0 <= j < |p1| && p1[j] && edges[j] == e;
      DecodeMembership(edges, p2, j);
    }
  }

  /** The random choices behind one roulette child: two draws for the parents and one coin per bit. */
  datatype RouletteDraw = RouletteDraw(x1: real, x2: real, coins: seq<bool>)

  /** child is what the roulette crossover builds from draw d. */
  ghost predicate IsRouletteChild(population: seq<Genome>, cumulative: seq<real>, d: RouletteDraw, child: Genome)
    requires Shaped(population, |d.coins|) && |cumulative| == |population|
  {
    exists a, b :: IsRouletteIndex(cumulative, d.x1, a) && IsRouletteIndex(cumulative, d.x2, b)
      && child == UniformChild(population[a], population[b], d.coins)
  }

  /**
   Uniform crossover with roulette-wheel selection: slots 0 and 1 are left as
   given; every later slot i merges two roulette-selected parents with the
   coins of draw i - 2.
   */
  method UniformCrossover(population: seq<Genome>, cumulative: seq<real>, next: seq<Genome>, draws: seq<RouletteDraw>)
    returns (r: seq<Genome>)
    requires |population| >= 2 && |cumulative| == |population| && |next| == |population|
    requires Shaped(population, |population[0]|) && Shaped(next, |population[0]|)
    requires |draws| == |population| - 2
    requires forall i :: 0 <= i < |draws| ==> |draws[i].coins| == |population[0]|
    ensures |r| == |population|
    ensures r[0] == next[0] && r[1] == next[1]
    ensures forall i :: 2 <= i < |r| ==> IsRouletteChild(population, cumulative, draws[i - 2], r[i])
    ensures Shaped(r, |population[0]|)
  {
    r := next;
    var i := 2;
    while i < |population|
      invariant 2 <= i <= |population|
      invariant |r| == |population|
      invariant Shaped(r, |population[0]|)
      invariant r[0] == next[0] && r[1] == next[1]
      invariant forall j :: 2 <= j < i ==> IsRouletteChild(population, cumulative, draws[j - 2], r[j])
    {
      var d := draws[i - 2];
      var a := IndexByCumulative(cumulative, d.x1);
      var b := IndexByCumulative(cumulative, d.x2);
      var child := UniformChild(population[a], population[b], d.coins);
      assert IsRouletteChild(population, cumulative, d, child);
      r := r[i := child];
      i := i + 1;
    }
  }
}
